=== FILE: README.md ===
# Brashboard data layer in Dafny

Brashboard is a web dashboard of COVID-19 figures for Brazil, its states and
its cities. This project models the data layer of its single application file,
`app.py`. It covers:

- how the rows of a place's case table are cleaned;
- how they are grouped and summed by date and by epidemiological week;
- how the week-over-week growth per 100 000 inhabitants is computed and shown;
- how the headline totals are picked and written with dot-separated thousands;
- how the reference table of IBGE codes feeds the state and city dropdowns and
  the location label;
- how the request handler chooses between a city, a state and the whole nation.

The rows of a place are a sequence of `Record`s (date, cumulative confirmed,
cumulative deaths, new confirmed, new deaths, epidemiological week, population,
`is_last` flag).

Modules (one file each):

- `Records`: the row, counter and error types.
- `Clamp`: `num[num < 0] = 0`, as an in-place loop over an array
  (`ClampNegatives`) specified by the pure `ClampAll`.
- `Grouping`: `groupby(...).sum()`, built by ordered insertion, with its
  meaning proved as lemmas.
- `Selection`: boolean-mask selection and `.item()`.
- `Decimal`: `'{:,d}'.format(n).replace(',', '.')`, the float rendering of
  codes and `.str.replace('.0', '')`, and the `int()` parse of a code.
- `Growth`: `get_growth_data`, the nation-wide growth figure and
  `generate_growth_indicator`.
- `Indicators`: the `is_last` row and the latest per-date bucket.
- `Reference`: `get_dropdown_states`, `get_dropdown_cities`, `get_ibge_label`.
- `Dashboard`: `generate_graphs` and `update_graphs` as methods that build
  the panel list by successive appends, plus `update_dropdowns`.

Python exceptions become `Err` values of a `Result` type:

- `NoSuchPosition` is the `IndexError` of `.iloc`;
- `ZeroPopulation` is the `ZeroDivisionError`;
- `NotUnique(n)` is the `ValueError` of `.item()` on `n` rows;
- `NotAnInteger` is the `ValueError` of `int()`;
- `MissingColumn` is the `KeyError` of a column lookup. A fetch that returns
  no rows is read into a frame without columns, so `df['date']` fails.

Errors are reported in the order Python raises them. For example,
`get_growth_data` reads the first population before the positional lookups,
and `generate_graphs` fails on a missing column first, then on the `is_last`
lookup, then on the growth figure.
The remote data source is the parameter `fetch` of `UpdateGraphs`. The
nation-wide state rows, fetched once at start-up, are the parameter `brRows`.
The reference CSV is the parameter `table`.

Some consequences of what `app.py` does, which the model keeps:

- The clamp overwrites every numeric column of a place's frame. So the
  cumulative counts, the week and the population are clamped along with the
  two daily counters.
- The nation-wide rows are summed without any clamp.
- Weeks without rows get no bucket; nothing fills them with zeros.
- A failed lookup raises the pandas or Python exception. There is no
  separate "unknown location" error.

## Model

| member | source | states |
|---|---|---|
| Clamp.ClampRecord | app.py:207-208 | Every numeric cell that was at least 0 keeps its value and every negative one becomes 0; date and `is_last` are kept; a row without negatives is unchanged |
| Clamp.ClampAll | app.py:207-208 | The clamped table has as many rows as the input, and row k is the clamp of input row k |
| Clamp.ClampAllNonNegative | app.py:208 | After the clamp no numeric field of any row is negative |
| Clamp.ClampAllKeepsNonNegative | app.py:208 | A row whose fields were all already at least 0 comes out unchanged |
| Clamp.ClampedIffUnchanged | app.py:208 | The clamp leaves a table unchanged exactly when no field in it is negative |
| Clamp.ClampAllIdempotent | app.py:208 | Clamping twice gives the same table as clamping once |
| Clamp.ClampNegatives | app.py:207-208 | The in-place overwrite leaves the array holding the clamp of its old contents, with the same length |
| Grouping.GroupSum | app.py:465-468 | Group-by buckets come out in strictly ascending key order |
| Grouping.GroupSumKeys | app.py:465 | The bucket keys are exactly the distinct keys of the rows |
| Grouping.GroupSumTotal | app.py:465 | Conservation: the buckets together hold exactly the sums of all rows |
| Grouping.GroupSumLookup | app.py:199 | The sums stored for any key are the sums over exactly the rows with that key (zero when no row has it) |
| Grouping.GroupSumBucket | app.py:467 | Every bucket holds the sum of the rows whose key is its key |
| Grouping.GroupSumOnePerKey | app.py:465 | One bucket per distinct key: every row's key has a bucket and no two buckets share a key |
| Grouping.GroupSumLastIsLatest | app.py:465-466 | For a non-empty table the last bucket's key is the key of some row and no row has a greater one, i.e. the latest date or week |
| Selection.Where | app.py:30 | The mask selection keeps only rows of the table that satisfy the condition and never more rows than the table has |
| Selection.Positions | app.py:22 | The positions of the rows that satisfy the condition: each such position exactly once, in increasing order, and no other |
| Selection.WhereAtPositions | app.py:22-25 | The selection is the order-keeping filter: its k-th row is the row at the k-th position that satisfies the condition |
| Selection.WhereMembers | app.py:30 | A row is selected exactly when it is in the table and satisfies the condition |
| Selection.Item | app.py:29 | `.item()` succeeds exactly when the selection has one row and yields a row that satisfies the condition; otherwise it fails with the selection's size |
| Selection.ItemIsUniqueRow | app.py:29 | `.item()` succeeds exactly when one position satisfies the condition, and then yields the row at that position |
| Decimal.ParseDigitsOfDigits | app.py:249-250 | The round-trip step for the formatted headline counters: parsing the decimal digits of n gives back n |
| Decimal.DropDotsGrouped | app.py:249-250 | Deleting the separators from grouped digits gives back the digits |
| Decimal.GroupedShape | app.py:249-250 | Grouped digits have one dot per full group of three after the first; a character is a dot exactly at every fourth position from the right end, so every group but the first has exactly three digits, and the text never starts with a dot |
| Decimal.FormatThousands | app.py:249-250 | Deleting the dots of the formatted number leaves its sign (a minus for negative n) and the decimal digits of its absolute value. The text has one dot per full group of three digits after the first, and after the sign a character is a dot exactly at every fourth position from the right end |
| Decimal.FormatThousandsRoundTrip | app.py:249-250 | Deleting the dots of the formatted number and parsing sign and digits gives back n; a leading minus appears exactly for negative n; for n at least 0 the text is its plain digits once the dots are deleted |
| Decimal.StripPointZero | app.py:24 | Removing every ".0" leaves text without a dot unchanged (the same removal is applied to the city codes at line 32) |
| Decimal.StripPointZeroPrefix | app.py:24 | Removing ".0" from text that starts with a dot-free part leaves that part intact |
| Decimal.CodeRoundTrip | app.py:23-29 | A code rendered as a float ("n.0") with every ".0" removed is the decimal of n, which `int()` (`ParseCode`, defined on non-empty digit strings) reads back as n |
| Growth.WeeklyGrowth | app.py:198-203 | The figure exists exactly when there are at least 3 weekly buckets and a non-zero population. Current and previous are the second-to-last and third-to-last buckets' new cases per 100 000. The error kinds follow Python's order: index, division, index |
| Growth.GrowthData | app.py:198-203 | A place's figure fails on a table without rows with a missing column, as the group-by of a frame read from an empty list does. Otherwise it exists exactly when the first population is non-zero and there are at least 3 weeks, with the division and index errors in Python's order. The three latest week keys are ordered. Current and previous are the new cases over exactly the rows of the second-latest and third-latest weeks, per 100 000 of the first row's population |
| Growth.NationGrowth | app.py:591-592 | The nation's figure uses the fixed population 210147125 and exists exactly when there are at least 3 weekly buckets; otherwise the error is a missing position. The current and previous figures are the second-to-last and third-to-last weekly new-case sums per 100 000 people |
| Growth.Per100kMonotone | app.py:201-202 | With a positive population, one weekly count's rate is larger than another's exactly when the count is larger |
| Growth.GrowthUpIffWeekGrew | app.py:201-202 | With a positive population and at least 3 weeks, current is above previous exactly when the second-to-last week's new cases exceed the third-to-last's |
| Growth.GrowthIndicator | app.py:164-196 | The card shows the current figure. It shows "up" exactly when current minus previous is positive ("down" on zero), and its magnitude is the absolute difference of the two figures, never negative |
| Growth.GrowthCardRecoversPrevious | app.py:165 | The card's figure, arrow and magnitude determine the previous week's figure |
| Indicators.LastRecord | app.py:249-251 | The headline row exists exactly when one row is flagged `is_last`; it is a row of the table with the flag set, and the error carries the number of flagged rows |
| Indicators.LastRecordIsUniqueRow | app.py:249-259 | The headline lookup succeeds exactly when one position is flagged, and then yields that row |
| Indicators.NationLatest | app.py:576-588 | The nation's headline bucket, `iloc[-1]` (`LatestBucket`) of the per-date sums, exists exactly when there are state rows. Its date is a date some row has, and no row has a later one. Its counters are the sums over exactly the rows of that date |
| Reference.OptionOf | app.py:23-25 | A dropdown entry shows the row's name, and its value is the decimal digits of the row's code, which `int()` reads back as the code |
| Reference.Options | app.py:33 | One entry per row, in table order |
| Reference.PlaceWithCode | app.py:29 | The code lookup yields a row of the table that has the code, or fails as `.item()` does |
| Reference.PlaceWithCodeUnique | app.py:38 | The code lookup succeeds exactly when one row has the code, and then yields that row |
| Reference.IbgeLabel | app.py:36-42 | A label exists exactly when the code parses and one row has it; a code that does not parse fails as `int()` does. A city's label is "name (state)" and a state's is the name alone |
| Reference.StateOptions | app.py:21-26 | One entry per state row of the table, in table order: the k-th entry is that of the k-th state row |
| Reference.StateOptionsExact | app.py:21-26 | The state entries are exactly the entries of the state rows of the table, each showing the row's name with its code as plain digits |
| Reference.CityOptions | app.py:28-34 | The city list exists exactly when the state value parses and one row carries that code, and it then lists the cities of that row's state. A value that does not parse fails as `int()` does. A code that parses but is not carried by exactly one row fails as `.item()` does |
| Reference.CityOptionsExact | app.py:28-34 | The city entries are exactly the entries of the city rows whose state abbreviation is that of the one row carrying the selected code: the k-th entry is that of the k-th such row, in table order |
| Dashboard.WeeklyBarsMatchDailyBars | app.py:224-246 | A place's weekly chart has one bar per week present and no bar for a week no row has, in ascending week order. Each bar is the counter summed over exactly that week's rows, and the bars add up to what the daily bars add up to |
| Dashboard.NationBarsTotal | app.py:551-573 | The nation's per-date and per-week charts both add up to the counter summed over all state rows |
| Dashboard.GenerateGraphs | app.py:205-268 | Clamps the array in place, then yields the place's panels for the clamped rows, or the first error raised: a missing column for an empty fetch, then the `is_last` lookup, then the growth figure |
| Dashboard.UpdateGraphs | app.py:519-598 | A selected city wins over a selected state. Neither means the nation, labelled "Brasil". The label is appended after the panels, and a failing panel list is reported before a failing label |
| Dashboard.UpdateDropdowns | app.py:488-492 | With no state: no entries and a disabled dropdown. With a state: that state's city entries (or their error) and an enabled dropdown. The city value is reset either way |
| Dashboard.PlacePanelsSucceed | app.py:205-268 | States what `generate_graphs` yields for clamped rows (`PlacePanels`). A place's panels exist exactly when one row is flagged `is_last`, there are at least 3 weeks and the first population is non-zero. A table without rows fails on a missing column. Otherwise, without a unique flagged row, the error is `.item()`'s |
| Dashboard.PlaceHeadlinesFromLastRow | app.py:248-266 | There are nine panels. The two cards show the flagged row's totals and new counts, formatted, and its date, and the growth card follows the growth figure |
| Dashboard.PlaceTrend | app.py:264-266 | With a positive first population the growth card points up exactly when the second-latest week's bucket sum exceeds the third-latest's |
| Dashboard.PlaceGrowthUpIffWeekGrew | app.py:198-208 | For clamped rows, the growth card points up exactly when the second-latest epidemiological week had more new cases than the third-latest |
| Dashboard.PlaceHeadlinesUnsigned | app.py:207-261 | For clamped rows, every number on the two headline cards is written without a sign |
| Dashboard.NationPanelsSucceed | app.py:536-594 | States what the nation branch of `update_graphs` yields (`NationPanels`). The nation's panels exist exactly when there are at least 3 epidemiological weeks; the only error is a missing position |
| Dashboard.NationHeadlinesFromLatestDate | app.py:575-589 | The nation's cards show a date that some state row has and no row exceeds, with the sums over exactly the rows of that date |

## Left out

- The Dash layout, the Bootstrap components and the callback wiring: these are UI. The model passes the callbacks' inputs as parameters and returns their outputs.
- Plotly figure construction: colours, margins, hover templates and the histogram's own binning (`nbinsx`, `xaxis_range`). Each chart is modelled by the series it plots. The weekly histogram is modelled as the exact per-week sums of the group-by.
- HTTP requests and the JSON-to-frame conversion (`get_data`, `get_br_data`), and loading the reference CSV: these are I/O. They are the parameters `fetch`, `brRows` and `table`. The 10 000-row page size of the nation-wide request is therefore not modelled.
- Growth.Per100k: floating-point arithmetic is not modelled. Growth values are exact reals.
- Float rendering: the text of the growth card (`'{:,.2f}'` followed by `.replace('.', ',')`) is not modelled. That rendering also turns the thousands separators into commas, so "1,234.50" is shown as "1,234,50" and the decimal comma is ambiguous for figures of 1 000 or more.
- Date rendering `{:%d/%m}` of the cards: dates are day numbers here.
- Decimal.ParseCode: it accepts only plain decimal digits. Python's `int()` also accepts surrounding whitespace, a sign and digit-group underscores. The dropdown values are always plain digits, so the model keeps to those.
- The reference table's codes are taken to be read as floats, so `astype(str)` renders them as "n.0". A code read as an integer would render as "n", and removing ".0" would leave it unchanged.
- Pandas dtypes: integer columns are unbounded integers. The model does not cover a float-typed count column, on which `'{:,d}'` would raise.
- NationPanelsSucceed: an empty nation-wide table already fails at start-up, where `df.groupby(['date'])` raises a `KeyError` before any callback runs. The model reports it as the missing position of `iloc[-1]` instead, because start-up is not part of this model.
- The exception handling of the web framework: a failing callback is reported as the `Err` it returns, not as the framework's error display.
- `map-dashboard.py` (a UI prototype whose only logic duplicates the ".0" stripping) and `dados/update-data.py` (an interactive download script) are not part of this model.
- Moving averages, lethality and mortality ratios, and zero-filling of missing weeks do not occur in `app.py` and are not modelled.

=== FILE: clamp.dfy ===
/**
 Negative-value correction of a place's case table: every numeric column of
 the frame is overwritten in place so that values below zero become zero.
 The numeric columns are the two cumulative counters, the two daily counters,
 the epidemiological week and the population; the date and the is_last flag
 are not numbers and keep their value.
 */
module Clamp {
  import opened Records

  function Max0(x: int): (r: int)
    ensures r >= 0 && (x >= 0 ==> r == x) && (x < 0 ==> r == 0)
  {
    if x < 0 then 0 else x
  }

  /** No numeric field of the record is negative. */
  predicate NonNegative(r: Record) {
    && r.confirmed >= 0 && r.deaths >= 0
    && r.newConfirmed >= 0 && r.newDeaths >= 0
    && r.week >= 0 && r.population >= 0
  }

  /** One cell after the clamp: kept when it was at least zero, zero otherwise. */
  predicate ClampedCell(before: int, after: int) {
    (before >= 0 ==> after == before) && (before < 0 ==> after == 0)
  }

  /** The clamp of one row. */
  function ClampRecord(r: Record): (c: Record)
    ensures NonNegative(c)
    ensures ClampedCell(r.confirmed, c.confirmed) && ClampedCell(r.deaths, c.deaths)
    ensures ClampedCell(r.newConfirmed, c.newConfirmed) && ClampedCell(r.newDeaths, c.newDeaths)
    ensures ClampedCell(r.week, c.week) && ClampedCell(r.population, c.population)
    ensures c.date == r.date && c.isLast == r.isLast
    ensures NonNegative(r) ==> c == r
  {
    Record(r.date, Max0(r.confirmed), Max0(r.deaths), Max0(r.newConfirmed),
           Max0(r.newDeaths), Max0(r.week), Max0(r.population), r.isLast)
  }

  /** The clamp of a whole table, row by row. */
  function ClampAll(rs: seq<Record>): (cs: seq<Record>)
    ensures |cs| == |rs|
    ensures forall k :: 0 <= k < |rs| ==> cs[k] == ClampRecord(rs[k])
  {
    if rs == [] then [] else [ClampRecord(rs[0])] + ClampAll(rs[1..])
  }

  /** No numeric field of any row of the table is negative. */
  predicate Clamped(rs: seq<Record>) {
    forall k :: 0 <= k < |rs| ==> NonNegative(rs[k])
  }

  /** After the clamp no numeric field of any row is negative. */
  lemma {:induction false} ClampAllNonNegative(rs: seq<Record>)
    ensures Clamped(ClampAll(rs))
  {
  }

  /** The tables the clamp leaves unchanged are exactly those with no negative field. */
  lemma {:induction false} ClampedIffUnchanged(rs: seq<Record>)
    ensures Clamped(rs) <==> ClampAll(rs) == rs
  {
    if ClampAll(rs) == rs {
      ClampAllNonNegative(rs);
    }
  }

  /** Rows whose fields were all already >= 0 are left as they were. */
  lemma {:induction false} ClampAllKeepsNonNegative(rs: seq<Record>, k: int)
    requires 0 <= k < |rs| && NonNegative(rs[k])
    ensures ClampAll(rs)[k] == rs[k]
  {
  }

  /** Clamping twice gives what clamping once gives. */
  lemma {:induction false} ClampAllIdempotent(rs: seq<Record>)
    ensures ClampAll(ClampAll(rs)) == ClampAll(rs)
  {
    var once := ClampAll(rs);
    forall k | 0 <= k < |rs|
      ensures ClampAll(once)[k] == once[k]
    {
      assert NonNegative(once[k]);
    }
  }

  /** The in-place clamp `num[num < 0] = 0` over the rows of the frame. */
  method ClampNegatives(a: array<Record>)
    modifies a
    ensures a[..] == ClampAll(old(a[..]))
  {
    var i := 0;
    while i < a.Length
      invariant 0 <= i <= a.Length
      invariant forall k :: 0 <= k < i ==> a[k] == ClampRecord(old(a[k]))
      invariant forall k :: i <= k < a.Length ==> a[k] == old(a[k])
    {
      a[i] := ClampRecord(a[i]);
      i := i + 1;
    }
  }
}

=== FILE: dashboard.dfy ===
/**
 The two request handlers of the dashboard and the panel list they build.
 `generate_graphs` clamps a place's rows in place and appends, in order,
 six charts, two headline cards and the growth card; `update_graphs` picks
 the scope (a city wins over a state, neither means the whole nation) and
 appends the location label. `update_dropdowns` gates the city dropdown on
 the state selection. The charts are modelled by the series they plot;
 their styling is not part of this model.
 */
module Dashboard {
  import opened Records
  import opened Clamp
  import opened Grouping
  import opened Decimal
  import opened Selection
  import opened Growth
  import opened Indicators
  import opened Reference

  /** One plotted point: a date (or a week) and a value. */
  datatype Point = Point(x: int, y: int)

  /** The two headline cards: cases and deaths. */
  datatype CardKind = CasesCard | DeathsCard

  /** One entry of the `childrens` list. */
  datatype Panel =
    | Cumulative(field: Field, points: seq<Point>)   // scatter of a cumulative counter per date
    | Daily(field: Field, points: seq<Point>)        // bars of a daily counter per date
    | Weekly(field: Field, points: seq<Point>)       // sums of a daily counter per epidemiological week
    | Headline(kind: CardKind, total: string, change: string, date: int)
    | GrowthPanel(card: GrowthCard)
    | Location(place: string)

  /** One point per row: its date and the chosen counter. */
  function Series(rs: seq<Record>, f: Field): (ps: seq<Point>)
    ensures |ps| == |rs|
    ensures forall i :: 0 <= i < |rs| ==> ps[i] == Point(rs[i].date, Pick(CountsOf(rs[i]), f))
  {
    seq(|rs|, i requires 0 <= i < |rs| => Point(rs[i].date, Pick(CountsOf(rs[i]), f)))
  }

  /** One point per bucket: its key and the chosen sum. */
  function BucketSeries(bs: seq<Bucket>, f: Field): (ps: seq<Point>)
    ensures |ps| == |bs|
    ensures forall i :: 0 <= i < |bs| ==> ps[i] == Point(bs[i].key, Pick(bs[i].sums, f))
  {
    seq(|bs|, i requires 0 <= i < |bs| => Point(bs[i].key, Pick(bs[i].sums, f)))
  }

  /** The plotted values of a chart, added up. */
  function SumY(ps: seq<Point>): int {
    if ps == [] then 0 else ps[0].y + SumY(ps[1..])
  }

  lemma {:induction false} SeriesSum(rs: seq<Record>, f: Field)
    ensures SumY(Series(rs, f)) == Pick(Total(rs), f)
  {
    if rs != [] {
      assert Series(rs, f)[1..] == Series(rs[1..], f);
      SeriesSum(rs[1..], f);
    }
  }

  lemma {:induction false} BucketSeriesSum(bs: seq<Bucket>, f: Field)
    ensures SumY(BucketSeries(bs, f)) == Pick(BucketTotal(bs), f)
  {
    if bs != [] {
      assert BucketSeries(bs, f)[1..] == BucketSeries(bs[1..], f);
      BucketSeriesSum(bs[1..], f);
    }
  }

  /** A place's weekly chart has one bar per epidemiological week present
      and no bar for a week no row has, in ascending week order; each bar is the sum of the counter over
      exactly the rows of its week, and the bars add up to what the daily
      bars of the same counter add up to. */
  lemma {:induction false} WeeklyBarsMatchDailyBars(rs: seq<Record>, f: Field)
    ensures var w := BucketSeries(GroupSum(rs, ByWeek), f);
            && (forall i, j :: 0 <= i < j < |w| ==> w[i].x < w[j].x)
            && (forall n :: 0 <= n < |rs| ==> exists i :: 0 <= i < |w| && w[i].x == rs[n].week)
            && (forall i :: 0 <= i < |w| ==> exists n :: 0 <= n < |rs| && rs[n].week == w[i].x)
            && (forall i :: 0 <= i < |w| ==> w[i].y == Pick(SumWhere(rs, ByWeek, w[i].x), f))
            && SumY(w) == SumY(Series(rs, f))
  {
    var bs := GroupSum(rs, ByWeek);
    var w := BucketSeries(bs, f);
    GroupSumOnePerKey(rs, ByWeek);
    assert Covers(bs, rs, ByWeek);
    GroupSumKeys(rs, ByWeek);
    forall i | 0 <= i < |w|
      ensures exists n :: 0 <= n < |rs| && rs[n].week == w[i].x
    {
      KeyIn(bs, i);
      var n := RowKeyPosition(rs, ByWeek, bs[i].key);
    }
    forall i | 0 <= i < |w|
      ensures w[i].y == Pick(SumWhere(rs, ByWeek, w[i].x), f)
    {
      GroupSumBucket(rs, ByWeek, i);
    }
    GroupSumTotal(rs, ByWeek);
    BucketSeriesSum(bs, f);
    SeriesSum(rs, f);
  }

  /** The nation's per-date and per-week charts of a counter both add up to
      that counter summed over all state rows. */
  lemma {:induction false} NationBarsTotal(brRows: seq<Record>, f: Field)
    ensures SumY(BucketSeries(GroupSum(brRows, ByDate), f)) == Pick(Total(brRows), f)
    ensures SumY(BucketSeries(GroupSum(brRows, ByWeek), f)) == Pick(Total(brRows), f)
  {
    GroupSumTotal(brRows, ByDate);
    BucketSeriesSum(GroupSum(brRows, ByDate), f);
    GroupSumTotal(brRows, ByWeek);
    BucketSeriesSum(GroupSum(brRows, ByWeek), f);
  }

  /** A headline card: the total and the latest day's change, written with dot-separated thousands. */
  function Card(kind: CardKind, c: Counts, date: int): Panel {
    match kind
    case CasesCard => Headline(CasesCard, FormatThousands(c.confirmed), FormatThousands(c.newConfirmed), date)
    case DeathsCard => Headline(DeathsCard, FormatThousands(c.deaths), FormatThousands(c.newDeaths), date)
  }

  /** The six charts of a place, from its rows. */
  function PlaceCharts(rs: seq<Record>): seq<Panel> {
    var weekly := GroupSum(rs, ByWeek);
    [ Cumulative(Confirmed, Series(rs, Confirmed)), Cumulative(Deaths, Series(rs, Deaths)),
      Daily(NewConfirmed, Series(rs, NewConfirmed)), Daily(NewDeaths, Series(rs, NewDeaths)),
      Weekly(NewConfirmed, BucketSeries(weekly, NewConfirmed)), Weekly(NewDeaths, BucketSeries(weekly, NewDeaths)) ]
  }

  /** What `generate_graphs` returns for rows that are already clamped:
      the six charts, the two headline cards of the `is_last` row and the
      growth card, or the first error raised on the way. A fetch that
      returned no rows gives a frame without columns, so the first chart's
      `df['date']` already fails. */
  function PlacePanels(rs: seq<Record>): Result<seq<Panel>> {
    if rs == [] then Err(MissingColumn) else
    match LastRecord(rs)
    case Err(e) => Err(e)
    case Ok(last) =>
      match GrowthData(rs)
      case Err(e) => Err(e)
      case Ok(g) =>
        Ok(PlaceCharts(rs)
           + [Card(CasesCard, CountsOf(last), last.date), Card(DeathsCard, CountsOf(last), last.date)]
           + [GrowthPanel(GrowthIndicator(g.current, g.previous))])
  }

  /** The six charts of the nation, from the per-date and per-week sums. */
  function NationCharts(byDate: seq<Bucket>, byWeek: seq<Bucket>): seq<Panel> {
    [ Cumulative(Confirmed, BucketSeries(byDate, Confirmed)), Cumulative(Deaths, BucketSeries(byDate, Deaths)),
      Daily(NewConfirmed, BucketSeries(byDate, NewConfirmed)), Daily(NewDeaths, BucketSeries(byDate, NewDeaths)),
      Weekly(NewConfirmed, BucketSeries(byWeek, NewConfirmed)), Weekly(NewDeaths, BucketSeries(byWeek, NewDeaths)) ]
  }

  /** The nation branch of `update_graphs` (without the label): the state
      rows are summed per date and per week (not clamped), the cards come
      from the latest date's sums and the growth uses the fixed population. */
  function NationPanels(brRows: seq<Record>): Result<seq<Panel>> {
    var byDate := GroupSum(brRows, ByDate);
    var byWeek := GroupSum(brRows, ByWeek);
    match LatestBucket(byDate)
    case Err(e) => Err(e)
    case Ok(latest) =>
      match NationGrowth(brRows)
      case Err(e) => Err(e)
      case Ok(g) =>
        Ok(NationCharts(byDate, byWeek)
           + [Card(CasesCard, latest.sums, latest.key), Card(DeathsCard, latest.sums, latest.key)]
           + [GrowthPanel(GrowthIndicator(g.current, g.previous))])
  }

  /** Appends the location label, unless the panels or the label failed (in that order). */
  function WithLocation(panels: Result<seq<Panel>>, place: Result<string>): Result<seq<Panel>> {
    match panels
    case Err(e) => Err(e)
    case Ok(ps) =>
      match place
      case Err(e) => Err(e)
      case Ok(l) => Ok(ps + [Location(l)])
  }

  /** `generate_graphs`: clamps the frame in place, then appends the panels one by one. */
  method GenerateGraphs(a: array<Record>) returns (r: Result<seq<Panel>>)
    modifies a
    ensures a[..] == ClampAll(old(a[..]))
    ensures r == PlacePanels(a[..])
  {
    ClampNegatives(a);
    if a.Length == 0 {
      return Err(MissingColumn);
    }
    var rs := a[..];
    var weekly := GroupSum(rs, ByWeek);
    var children: seq<Panel> := [];
    children := children + [Cumulative(Confirmed, Series(rs, Confirmed))];
    children := children + [Cumulative(Deaths, Series(rs, Deaths))];
    children := children + [Daily(NewConfirmed, Series(rs, NewConfirmed))];
    children := children + [Daily(NewDeaths, Series(rs, NewDeaths))];
    children := children + [Weekly(NewConfirmed, BucketSeries(weekly, NewConfirmed))];
    children := children + [Weekly(NewDeaths, BucketSeries(weekly, NewDeaths))];
    assert children == PlaceCharts(rs);
    var last := LastRecord(rs);
    if last.Err? {
      return Err(last.error);
    }
    var cards := [Card(CasesCard, CountsOf(last.value), last.value.date), Card(DeathsCard, CountsOf(last.value), last.value.date)];
    children := children + [cards[0]];
    children := children + [cards[1]];
    assert children == PlaceCharts(rs) + cards;
    var growth := GrowthData(rs);
    if growth.Err? {
      return Err(growth.error);
    }
    children := children + [GrowthPanel(GrowthIndicator(growth.value.current, growth.value.previous))];
    r := Ok(children);
  }

  /** `update_graphs`: a selected city wins over a selected state; the rows
      of the chosen place come from `fetch` (the remote data source), and
      with no selection the nation-wide rows `brRows` are used and the
      label is "Brasil". */
  method UpdateGraphs(state: Option<string>, city: Option<string>, table: seq<Place>,
                      fetch: string -> seq<Record>, brRows: seq<Record>)
    returns (r: Result<seq<Panel>>)
    ensures city.Some? ==>
      r == WithLocation(PlacePanels(ClampAll(fetch(city.value))), IbgeLabel(table, city.value, true))
    ensures city.None? && state.Some? ==>
      r == WithLocation(PlacePanels(ClampAll(fetch(state.value))), IbgeLabel(table, state.value, false))
    ensures city.None? && state.None? ==>
      r == WithLocation(NationPanels(brRows), Ok("Brasil"))
  {
    if city.Some? || state.Some? {
      var code := if city.Some? then city.value else state.value;
      var rows := fetch(code);
      var a := new Record[|rows|](i requires 0 <= i < |rows| => rows[i]);
      assert a[..] == rows;
      var panels := GenerateGraphs(a);
      if panels.Err? {
        return panels;
      }
      var name := IbgeLabel(table, code, city.Some?);
      if name.Err? {
        return Err(name.error);
      }
      r := Ok(panels.value + [Location(name.value)]);
    } else {
      var byDate := GroupSum(brRows, ByDate);
      var byWeek := GroupSum(brRows, ByWeek);
      var children: seq<Panel> := [];
      children := children + [Cumulative(Confirmed, BucketSeries(byDate, Confirmed))];
      children := children + [Cumulative(Deaths, BucketSeries(byDate, Deaths))];
      children := children + [Daily(NewConfirmed, BucketSeries(byDate, NewConfirmed))];
      children := children + [Daily(NewDeaths, BucketSeries(byDate, NewDeaths))];
      children := children + [Weekly(NewConfirmed, BucketSeries(byWeek, NewConfirmed))];
      children := children + [Weekly(NewDeaths, BucketSeries(byWeek, NewDeaths))];
      assert children == NationCharts(byDate, byWeek);
      var latest := LatestBucket(byDate);
      if latest.Err? {
        return Err(latest.error);
      }
      var cards := [Card(CasesCard, latest.value.sums, latest.value.key), Card(DeathsCard, latest.value.sums, latest.value.key)];
      children := children + [cards[0]];
      children := children + [cards[1]];
      assert children == NationCharts(byDate, byWeek) + cards;
      var growth := WeeklyGrowth(byWeek, PopBrazil);
      if growth.Err? {
        return Err(growth.error);
      }
      var card := GrowthPanel(GrowthIndicator(growth.value.current, growth.value.previous));
      children := children + [card];
      assert children == NationCharts(byDate, byWeek) + cards + [card];
      children := children + [Location("Brasil")];
      r := Ok(children);
    }
  }

  /** The state of the city dropdown: its entries, whether it is disabled, and its value. */
  datatype CityDropdown = CityDropdown(options: seq<DropdownOption>, disabled: bool, selected: Option<string>)

  /** `update_dropdowns`: with a state selected, that state's cities and an
      enabled dropdown; with none, no entries and a disabled dropdown. The
      city value is reset either way. */
  function UpdateDropdowns(table: seq<Place>, state: Option<string>): (r: Result<CityDropdown>)
    ensures r.Ok? ==> r.value.selected == None
    ensures r.Ok? ==> (r.value.disabled <==> state.None?)
    ensures state.None? ==> r == Ok(CityDropdown([], true, None))
    ensures state.Some? ==> (r.Ok? <==> CityOptions(table, state.value).Ok?)
    ensures state.Some? && r.Ok? ==> r.value.options == CityOptions(table, state.value).value
  {
    match state
    case None => Ok(CityDropdown([], true, None))
    case Some(s) =>
      match CityOptions(table, s)
      case Err(e) => Err(e)
      case Ok(options) => Ok(CityDropdown(options, false, None))
  }

  /** A place's panels exist exactly when one row is flagged `is_last` and
      the growth figure can be computed. A table without rows fails on its
      missing columns; otherwise a missing or repeated `is_last` row is
      reported first. */
  lemma {:induction false} PlacePanelsSucceed(rs: seq<Record>)
    ensures PlacePanels(rs).Ok? <==>
              (exists i :: UniqueAt(rs, IsLast, i)) && |GroupSum(rs, ByWeek)| >= 3 && rs[0].population != 0
    ensures rs == [] ==> PlacePanels(rs) == Err(MissingColumn)
    ensures rs != [] && !(exists i :: UniqueAt(rs, IsLast, i)) ==> PlacePanels(rs) == Err(NotUnique(|Where(rs, IsLast)|))
  {
    LastRecordIsUniqueRow(rs);
  }

  /** A place's headline cards show the totals, the new counts and the date
      of the one row flagged `is_last`, and the growth card follows the
      weekly sums. */
  lemma {:induction false} PlaceHeadlinesFromLastRow(rs: seq<Record>, i: int)
    requires UniqueAt(rs, IsLast, i) && PlacePanels(rs).Ok?
    ensures |PlacePanels(rs).value| == 9
    ensures PlacePanels(rs).value[6] ==
              Headline(CasesCard, FormatThousands(rs[i].confirmed), FormatThousands(rs[i].newConfirmed), rs[i].date)
    ensures PlacePanels(rs).value[7] ==
              Headline(DeathsCard, FormatThousands(rs[i].deaths), FormatThousands(rs[i].newDeaths), rs[i].date)
    ensures PlacePanels(rs).value[8] ==
              GrowthPanel(GrowthIndicator(GrowthData(rs).value.current, GrowthData(rs).value.previous))
  {
    LastRecordIsUniqueRow(rs);
  }

  /** The panels of a place, laid out: the charts, the cards of the flagged row, the growth card. */
  lemma {:induction false} PlacePanelsShape(rs: seq<Record>)
    requires PlacePanels(rs).Ok?
    ensures LastRecord(rs).Ok? && GrowthData(rs).Ok?
    ensures var last := LastRecord(rs).value;
            var g := GrowthData(rs).value;
            PlacePanels(rs).value ==
              PlaceCharts(rs)
              + [Card(CasesCard, CountsOf(last), last.date), Card(DeathsCard, CountsOf(last), last.date)]
              + [GrowthPanel(GrowthIndicator(g.current, g.previous))]
  {
  }

  /** The growth card of a place points up exactly when the second-latest
      week's sum exceeds the third-latest's, for a positive first population. */
  lemma {:induction false} PlaceTrend(rs: seq<Record>)
    requires rs != [] && rs[0].population > 0 && PlacePanels(rs).Ok?
    ensures var bs := GroupSum(rs, ByWeek);
            var n := |bs|;
            && n >= 3
            && |PlacePanels(rs).value| == 9
            && (PlacePanels(rs).value[8].card.trend == Up <==> bs[n - 2].sums.newConfirmed > bs[n - 3].sums.newConfirmed)
  {
    PlacePanelsShape(rs);
    var bs := GroupSum(rs, ByWeek);
    var g := GrowthData(rs).value;
    assert g == WeeklyGrowth(bs, rs[0].population).value;
    assert PlacePanels(rs).value[8] == GrowthPanel(GrowthIndicator(g.current, g.previous));
    GrowthUpIffWeekGrew(bs, rs[0].population);
  }

  /** For a place whose rows are clamped, the growth card points up exactly
      when the second-latest epidemiological week had more new cases than
      the third-latest. */
  lemma {:induction false} PlaceGrowthUpIffWeekGrew(rs: seq<Record>)
    requires Clamped(rs) && PlacePanels(rs).Ok?
    ensures var bs := GroupSum(rs, ByWeek);
            var n := |bs|;
            && n >= 3
            && |PlacePanels(rs).value| == 9
            && (PlacePanels(rs).value[8].card.trend == Up <==>
                SumWhere(rs, ByWeek, bs[n - 2].key).newConfirmed > SumWhere(rs, ByWeek, bs[n - 3].key).newConfirmed)
  {
    var bs := GroupSum(rs, ByWeek);
    var n := |bs|;
    assert rs != [] && rs[0].population > 0 by {
      PlacePanelsShape(rs);
      assert NonNegative(rs[0]);
    }
    PlaceTrend(rs);
    GroupSumBucket(rs, ByWeek, n - 2);
    GroupSumBucket(rs, ByWeek, n - 3);
  }

  /** A headline number written without a sign: digits once the dots are deleted. */
  predicate Unsigned(s: string) {
    |DropDots(s)| > 0 && AllDigits(DropDots(s))
  }

  /** For a place whose rows are clamped, both headline cards show unsigned numbers. */
  lemma {:induction false} PlaceHeadlinesUnsigned(rs: seq<Record>)
    requires Clamped(rs) && PlacePanels(rs).Ok?
    ensures var ps := PlacePanels(rs).value;
            && |ps| == 9
            && Unsigned(ps[6].total) && Unsigned(ps[6].change)
            && Unsigned(ps[7].total) && Unsigned(ps[7].change)
  {
    PlacePanelsShape(rs);
    var r := LastRecord(rs).value;
    assert NonNegative(r);
    forall n: int | n >= 0
      ensures Unsigned(FormatThousands(n))
    {
      assert DropDots(FormatThousands(n)) == Digits(n);
    }
  }

  /** The panels of the nation, laid out: the charts, the cards of the latest date, the growth card. */
  lemma {:induction false} NationPanelsShape(brRows: seq<Record>)
    requires NationPanels(brRows).Ok?
    ensures LatestBucket(GroupSum(brRows, ByDate)).Ok? && NationGrowth(brRows).Ok?
    ensures var latest := LatestBucket(GroupSum(brRows, ByDate)).value;
            var g := NationGrowth(brRows).value;
            NationPanels(brRows).value ==
              NationCharts(GroupSum(brRows, ByDate), GroupSum(brRows, ByWeek))
              + [Card(CasesCard, latest.sums, latest.key), Card(DeathsCard, latest.sums, latest.key)]
              + [GrowthPanel(GrowthIndicator(g.current, g.previous))]
  {
  }

  /** The nation's panels exist exactly when the state rows span at least
      three epidemiological weeks; the only error is a missing position. */
  lemma {:induction false} NationPanelsSucceed(brRows: seq<Record>)
    ensures NationPanels(brRows).Ok? <==> |GroupSum(brRows, ByWeek)| >= 3
    ensures NationPanels(brRows).Err? ==> NationPanels(brRows).error == NoSuchPosition
  {
    NationLatest(brRows);
    if brRows == [] {
      assert GroupSum(brRows, ByWeek) == [];
    }
  }

  /** The nation's headline cards show the latest date of the state rows
      (a date some row has, and no row has a later one) and the sums over
      exactly the state rows of that date. */
  lemma {:induction false} NationHeadlinesFromLatestDate(brRows: seq<Record>)
    requires NationPanels(brRows).Ok?
    ensures |NationPanels(brRows).value| == 9
    ensures exists d ::
              && (exists n :: 0 <= n < |brRows| && brRows[n].date == d)
              && (forall n :: 0 <= n < |brRows| ==> brRows[n].date <= d)
              && NationPanels(brRows).value[6] == Card(CasesCard, SumWhere(brRows, ByDate, d), d)
              && NationPanels(brRows).value[7] == Card(DeathsCard, SumWhere(brRows, ByDate, d), d)
  {
    var latest := LatestBucket(GroupSum(brRows, ByDate));
    assert latest.Ok? && |NationPanels(brRows).value| == 9
           && NationPanels(brRows).value[6] == Card(CasesCard, latest.value.sums, latest.value.key)
           && NationPanels(brRows).value[7] == Card(DeathsCard, latest.value.sums, latest.value.key) by {
      NationPanelsShape(brRows);
    }
    var b := latest.value;
    assert && (exists n :: 0 <= n < |brRows| && brRows[n].date == b.key)
           && (forall n :: 0 <= n < |brRows| ==> brRows[n].date <= b.key)
           && b.sums == SumWhere(brRows, ByDate, b.key) by {
      NationLatest(brRows);
    }
  }
}

=== FILE: decimal.dfy ===
/**
 Decimal text of integers as the dashboard produces and reads it:
 - the headline counters are written with Python's `'{:,d}'` (groups of three
   digits from the right, joined by commas) and every comma is then replaced
   by a dot, giving the Brazilian "1.234.567";
 - the codes of the reference table are floats, so `str` renders them as
   "<digits>.0", and every ".0" substring is then removed;
 - a code chosen in a dropdown is read back with `int()`.
 */
module Decimal {
  import opened Records

  predicate IsDigit(c: char) {
    '0' <= c <= '9'
  }

  predicate AllDigits(s: string) {
    forall i :: 0 <= i < |s| ==> IsDigit(s[i])
  }

  function DigitChar(d: int): (c: char)
    requires 0 <= d < 10
    ensures IsDigit(c)
  {
    (48 + d) as char
  }

  function DigitValue(c: char): (d: int)
    requires IsDigit(c)
    ensures 0 <= d < 10
  {
    c as int - 48
  }

  /** The decimal digits of `n`, without leading zeros. */
  function Digits(n: nat): (s: string)
    ensures |s| >= 1 && AllDigits(s)
    ensures s[0] == '0' ==> n == 0
  {
    if n < 10 then [DigitChar(n)] else Digits(n / 10) + [DigitChar(n % 10)]
  }

  /** The value of a string of decimal digits. */
  function ParseDigits(s: string): nat
    requires AllDigits(s)
  {
    if s == [] then 0 else ParseDigits(s[..|s| - 1]) * 10 + DigitValue(s[|s| - 1])
  }

  /** Reading back the digits of `n` gives `n`. */
  lemma {:induction false} ParseDigitsOfDigits(n: nat)
    ensures ParseDigits(Digits(n)) == n
  {
    if n >= 10 {
      var s := Digits(n);
      assert s[..|s| - 1] == Digits(n / 10);
      ParseDigitsOfDigits(n / 10);
    }
  }

  /** A digit string split into groups of three from the right, joined by dots. */
  function Grouped(ds: string): string
    decreases |ds|
  {
    if |ds| <= 3 then ds else Grouped(ds[..|ds| - 3]) + "." + ds[|ds| - 3..]
  }

  /** A position holds a dot exactly when its distance from the end is a multiple of four. */
  predicate DotEveryFourth(g: string) {
    forall i :: 0 <= i < |g| ==> (g[i] == '.' <==> (|g| - i) % 4 == 0)
  }

  /** `'{:,d}'.format(n).replace(',', '.')`: sign, then the grouped digits
      of |n|. Deleting the dots leaves the sign and the digits; after the
      sign, a position holds a dot exactly when its distance from the end
      is a multiple of four, one dot per full group of three. */
  function FormatThousands(n: int): (r: string)
    ensures var m: nat := if n < 0 then -n else n;
            var sign := if n < 0 then "-" else "";
            && DropDots(r) == sign + Digits(m)
            && |r| == |sign| + |Digits(m)| + (|Digits(m)| - 1) / 3
            && DotEveryFourth(r[|sign|..])
  {
    var m: nat := if n < 0 then -n else n;
    var sign := if n < 0 then "-" else "";
    DropDotsGrouped(Digits(m));
    DropDotsAppend(sign, Grouped(Digits(m)));
    GroupedShape(Digits(m));
    assert (sign + Grouped(Digits(m)))[|sign|..] == Grouped(Digits(m));
    sign + Grouped(Digits(m))
  }

  /** The string with every dot deleted. */
  function DropDots(s: string): (r: string)
    ensures '.' !in r
  {
    if s == [] then [] else (if s[0] == '.' then [] else [s[0]]) + DropDots(s[1..])
  }

  /** A decimal integer with an optional leading minus sign. */
  predicate IsInteger(s: string) {
    if |s| > 0 && s[0] == '-' then |s| > 1 && AllDigits(s[1..]) else |s| > 0 && AllDigits(s)
  }

  function ParseInteger(s: string): int
    requires IsInteger(s)
  {
    if |s| > 0 && s[0] == '-' then 0 - ParseDigits(s[1..]) else ParseDigits(s)
  }

  lemma {:induction false} DropDotsAppend(s: string, t: string)
    ensures DropDots(s + t) == DropDots(s) + DropDots(t)
  {
    if s != [] {
      assert (s + t)[0] == s[0];
      assert (s + t)[1..] == s[1..] + t;
      DropDotsAppend(s[1..], t);
    } else {
      assert s + t == t;
    }
  }

  lemma {:induction false} DropDotsOfDigits(ds: string)
    requires AllDigits(ds)
    ensures DropDots(ds) == ds
  {
    if ds != [] {
      DropDotsOfDigits(ds[1..]);
    }
  }

  /** A trailing separator leaves nothing once the dots are deleted. */
  lemma {:induction false} DropDotsSeparator(g: string)
    ensures DropDots(g + ".") == DropDots(g)
  {
    DropDotsAppend(g, ".");
    assert DropDots(".") == [];
    assert DropDots(g) + [] == DropDots(g);
  }

  /** Deleting the dots of one more group and its separator. */
  lemma {:induction false} DropDotsGroupStep(g: string, tail: string)
    requires AllDigits(tail)
    ensures DropDots(g + "." + tail) == DropDots(g) + tail
  {
    DropDotsSeparator(g);
    DropDotsAppend(g + ".", tail);
    DropDotsOfDigits(tail);
  }

  /** Deleting the dots of the grouped form gives back the digits. */
  lemma {:induction false} DropDotsGrouped(ds: string)
    requires AllDigits(ds)
    ensures DropDots(Grouped(ds)) == ds
    decreases |ds|
  {
    if |ds| <= 3 {
      DropDotsOfDigits(ds);
    } else {
      var head, tail := ds[..|ds| - 3], ds[|ds| - 3..];
      assert Grouped(ds) == Grouped(head) + "." + tail;
      DropDotsGroupStep(Grouped(head), tail);
      DropDotsGrouped(head);
      assert head + tail == ds;
    }
  }

  /** The shape of the grouped form: it does not start with a dot, and a
      position holds a dot exactly when its distance from the end is a
      multiple of four, so every group after the first has three digits
      and the first has one to three. */
  lemma {:induction false} GroupedShape(ds: string)
    requires |ds| >= 1 && AllDigits(ds)
    ensures |Grouped(ds)| == |ds| + (|ds| - 1) / 3
    ensures Grouped(ds)[0] != '.'
    ensures DotEveryFourth(Grouped(ds))
    decreases |ds|
  {
    var r := Grouped(ds);
    if |ds| <= 3 {
      forall i | 0 <= i < |r|
        ensures r[i] == '.' <==> (|r| - i) % 4 == 0
      {
        assert IsDigit(ds[i]);
      }
    } else {
      var head, tail := ds[..|ds| - 3], ds[|ds| - 3..];
      GroupedShape(head);
      var g := Grouped(head);
      assert r == g + "." + tail;
      var m := |g|;
      forall i | 0 <= i < |r|
        ensures r[i] == '.' <==> (|r| - i) % 4 == 0
      {
        if i < m {
          assert r[i] == g[i];
          assert |r| - i == (m - i) + 4;
        } else if i == m {
          assert |r| - i == 4;
        } else {
          assert r[i] == tail[i - m - 1];
          assert IsDigit(tail[i - m - 1]);
          assert 1 <= |r| - i <= 3;
        }
      }
    }
  }

  /** The displayed counter reads back as the number: delete the dots and
      parse the optional sign and the digits. A minus sign leads exactly
      the negative numbers; the others are their plain digits once the dots
      are deleted. */
  lemma {:induction false} FormatThousandsRoundTrip(n: int)
    ensures IsInteger(DropDots(FormatThousands(n)))
    ensures ParseInteger(DropDots(FormatThousands(n))) == n
    ensures n < 0 <==> FormatThousands(n)[0] == '-'
    ensures n >= 0 ==> DropDots(FormatThousands(n)) == Digits(n)
  {
    var m: nat := if n < 0 then -n else n;
    var ds := Digits(m);
    var s := FormatThousands(n);
    var t := DropDots(s);
    assert t == (if n < 0 then "-" else "") + ds;
    assert n >= 0 ==> s[0] != '.' by {
      GroupedShape(ds);
    }
    ParseDigitsOfDigits(m);
    if n < 0 {
      assert t[1..] == ds;
    } else {
      assert t == ds;
      assert s[0] == t[0] == ds[0] != '-';
    }
  }

  /** Python's `s.replace('.0', '')`: every ".0", found left to right without overlap, is removed. */
  function StripPointZero(s: string): (r: string)
    ensures '.' !in s ==> r == s
    decreases |s|
  {
    if |s| < 2 then s
    else if s[0] == '.' && s[1] == '0' then StripPointZero(s[2..])
    else [s[0]] + StripPointZero(s[1..])
  }

  /** A prefix without dots passes through the removal untouched. */
  lemma {:induction false} StripPointZeroPrefix(s: string, t: string)
    requires '.' !in s
    ensures StripPointZero(s + t) == s + StripPointZero(t)
  {
    var u := s + t;
    if s == [] {
      assert u == t;
    } else if |u| < 2 {
      assert t == [] && u == s;
    } else {
      assert StripPointZero(u) == [s[0]] + StripPointZero(s[1..] + t) by {
        assert u[0] == s[0] != '.' && u[1..] == s[1..] + t;
      }
      assert '.' !in s[1..] by {
        assert forall c :: c in s[1..] ==> c in s;
      }
      StripPointZeroPrefix(s[1..], t);
      assert [s[0]] + (s[1..] + StripPointZero(t)) == s + StripPointZero(t) by {
        assert [s[0]] + s[1..] == s;
      }
    }
  }

  /** `str` of an integral float: the digits followed by ".0". */
  function RenderFloat(n: nat): string {
    Digits(n) + ".0"
  }

  /** `int(s)` for the codes the dashboard reads: a non-empty run of digits. */
  function ParseCode(s: string): (r: Option<nat>)
    ensures r.Some? <==> |s| > 0 && AllDigits(s)
  {
    if |s| > 0 && AllDigits(s) then Some(ParseDigits(s)) else None
  }

  /** A code rendered as a float and stripped of ".0" is its plain digits,
      and `int()` reads it back as the code. */
  lemma {:induction false} CodeRoundTrip(n: nat)
    ensures StripPointZero(RenderFloat(n)) == Digits(n)
    ensures ParseCode(StripPointZero(RenderFloat(n))) == Some(n)
  {
    var ds := Digits(n);
    assert forall i :: 0 <= i < |ds| ==> ds[i] != '.';
    StripPointZeroPrefix(ds, ".0");
    assert StripPointZero(".0") == [];
    assert ds + [] == ds;
    ParseDigitsOfDigits(n);
  }
}

=== FILE: grouping.dfy ===
/**
 Group-by-key summation, the `df.groupby([key]).sum()` of the dashboard:
 rows are grouped by date or by epidemiological week, the counters of each
 group are added up, and the groups come out ordered by ascending key, as
 pandas orders the index of a group-by.

 The result is built by inserting the rows one at a time into an ordered
 list of buckets; the lemmas say what the list means: one bucket per
 distinct key, strictly ascending keys, each bucket holding the sum of
 exactly the rows with its key, and nothing gained or lost in total.
 */
module Grouping {
  import opened Records

  /** The column a frame is grouped by. */
  datatype Key = ByDate | ByWeek

  function KeyOf(r: Record, col: Key): int {
    match col
    case ByDate => r.date
    case ByWeek => r.week
  }

  /** One group: its key and the sums of its rows' counters. */
  datatype Bucket = Bucket(key: int, sums: Counts)

  predicate Ascending(bs: seq<Bucket>) {
    forall i, j :: 0 <= i < j < |bs| ==> bs[i].key < bs[j].key
  }

  /** The keys of the buckets. */
  function Keys(bs: seq<Bucket>): set<int> {
    if bs == [] then {} else {bs[0].key} + Keys(bs[1..])
  }

  /** The distinct keys of the rows. */
  function RowKeys(rs: seq<Record>, col: Key): set<int> {
    if rs == [] then {} else {KeyOf(rs[0], col)} + RowKeys(rs[1..], col)
  }

  /** The counters of all rows, added up. */
  function Total(rs: seq<Record>): Counts {
    if rs == [] then Zero else Add(CountsOf(rs[0]), Total(rs[1..]))
  }

  /** The counters of the rows whose key is `k`, added up. */
  function SumWhere(rs: seq<Record>, col: Key, k: int): Counts {
    if rs == [] then Zero
    else if KeyOf(rs[0], col) == k then Add(CountsOf(rs[0]), SumWhere(rs[1..], col, k))
    else SumWhere(rs[1..], col, k)
  }

  /** The sums of all buckets, added up. */
  function BucketTotal(bs: seq<Bucket>): Counts {
    if bs == [] then Zero else Add(bs[0].sums, BucketTotal(bs[1..]))
  }

  /** The sums held for key `k`, or zero when no bucket has that key. */
  function Lookup(bs: seq<Bucket>, k: int): Counts {
    if bs == [] then Zero
    else if bs[0].key == k then bs[0].sums
    else Lookup(bs[1..], k)
  }

  /** Adds counters `c` under key `k` to an ordered bucket list. */
  function Insert(bs: seq<Bucket>, k: int, c: Counts): (r: seq<Bucket>)
    requires Ascending(bs)
    ensures Ascending(r)
    ensures r != [] && (r[0].key == k || (bs != [] && r[0].key == bs[0].key))
  {
    if bs == [] then
      [Bucket(k, c)]
    else if k < bs[0].key then
      [Bucket(k, c)] + bs
    else if k == bs[0].key then
      [Bucket(k, Add(bs[0].sums, c))] + bs[1..]
    else
      [bs[0]] + Insert(bs[1..], k, c)
  }

  /** Inserting adds key `k` to the keys of the list and no other key. */
  lemma {:induction false} InsertKeys(bs: seq<Bucket>, k: int, c: Counts)
    requires Ascending(bs)
    ensures Keys(Insert(bs, k, c)) == Keys(bs) + {k}
  {
    if bs != [] && k > bs[0].key {
      InsertKeys(bs[1..], k, c);
    }
  }

  /** A key below the first key of an ordered list is in no bucket. */
  lemma {:induction false} AboveFirst(bs: seq<Bucket>, k: int)
    requires Ascending(bs) && bs != [] && k < bs[0].key
    ensures k !in Keys(bs) && Lookup(bs, k) == Zero
  {
    if |bs| > 1 {
      AboveFirst(bs[1..], k);
    }
  }

  /** In an ordered list no key exceeds the last bucket's key. */
  lemma {:induction false} KeysAtMostLast(bs: seq<Bucket>, x: int)
    requires Ascending(bs) && x in Keys(bs)
    ensures x <= bs[|bs| - 1].key
  {
    if x != bs[0].key {
      KeysAtMostLast(bs[1..], x);
    }
  }

  /** Inserting adds `c` to the total of the buckets. */
  lemma {:induction false} InsertTotal(bs: seq<Bucket>, k: int, c: Counts)
    requires Ascending(bs)
    ensures BucketTotal(Insert(bs, k, c)) == Add(BucketTotal(bs), c)
  {
    if bs != [] && k > bs[0].key {
      InsertTotal(bs[1..], k, c);
    }
  }

  /** Inserting adds `c` to the sums of key `k` and changes no other key. */
  lemma {:induction false} InsertLookup(bs: seq<Bucket>, k: int, c: Counts, j: int)
    requires Ascending(bs)
    ensures Lookup(Insert(bs, k, c), j) == if j == k then Add(Lookup(bs, j), c) else Lookup(bs, j)
  {
    if bs == [] {
    } else if k < bs[0].key {
      AboveFirst(bs, k);
    } else if k > bs[0].key {
      InsertLookup(bs[1..], k, c, j);
    }
  }

  /** The buckets of `rs` grouped by `col`, in ascending key order. */
  function GroupSum(rs: seq<Record>, col: Key): (bs: seq<Bucket>)
    ensures Ascending(bs)
  {
    if rs == [] then []
    else Insert(GroupSum(rs[1..], col), KeyOf(rs[0], col), CountsOf(rs[0]))
  }

  /** The bucket keys are exactly the distinct keys of the rows. */
  lemma {:induction false} GroupSumKeys(rs: seq<Record>, col: Key)
    ensures Keys(GroupSum(rs, col)) == RowKeys(rs, col)
  {
    if rs != [] {
      GroupSumKeys(rs[1..], col);
      InsertKeys(GroupSum(rs[1..], col), KeyOf(rs[0], col), CountsOf(rs[0]));
    }
  }

  /** Conservation: the buckets together hold exactly the sums of all rows. */
  lemma {:induction false} GroupSumTotal(rs: seq<Record>, col: Key)
    ensures BucketTotal(GroupSum(rs, col)) == Total(rs)
  {
    if rs != [] {
      GroupSumTotal(rs[1..], col);
      InsertTotal(GroupSum(rs[1..], col), KeyOf(rs[0], col), CountsOf(rs[0]));
    }
  }

  /** The bucket of each key holds the sum of exactly the rows with that key. */
  lemma {:induction false} GroupSumLookup(rs: seq<Record>, col: Key, k: int)
    ensures Lookup(GroupSum(rs, col), k) == SumWhere(rs, col, k)
  {
    if rs != [] {
      GroupSumLookup(rs[1..], col, k);
      InsertLookup(GroupSum(rs[1..], col), KeyOf(rs[0], col), CountsOf(rs[0]), k);
    }
  }

  /** In an ordered list, looking up a bucket's own key finds that bucket. */
  lemma {:induction false} LookupAt(bs: seq<Bucket>, i: int)
    requires Ascending(bs) && 0 <= i < |bs|
    ensures Lookup(bs, bs[i].key) == bs[i].sums
  {
    if i > 0 {
      LookupAt(bs[1..], i - 1);
    }
  }

  /** Bucket `i` of the group-by holds the sum of the rows whose key is its key. */
  lemma {:induction false} GroupSumBucket(rs: seq<Record>, col: Key, i: int)
    requires 0 <= i < |GroupSum(rs, col)|
    ensures GroupSum(rs, col)[i].sums == SumWhere(rs, col, GroupSum(rs, col)[i].key)
  {
    var bs := GroupSum(rs, col);
    LookupAt(bs, i);
    GroupSumLookup(rs, col, bs[i].key);
  }

  /** A key of the bucket set sits at some position of the list. */
  lemma {:induction false} KeyPosition(bs: seq<Bucket>, x: int) returns (i: int)
    requires x in Keys(bs)
    ensures 0 <= i < |bs| && bs[i].key == x
  {
    if bs[0].key == x {
      i := 0;
    } else {
      i := KeyPosition(bs[1..], x);
      i := i + 1;
    }
  }

  /** Every row contributes its key to the row keys. */
  lemma {:induction false} RowKeyOf(rs: seq<Record>, col: Key, r: Record)
    requires r in rs
    ensures KeyOf(r, col) in RowKeys(rs, col)
  {
    if rs[0] != r {
      RowKeyOf(rs[1..], col, r);
    }
  }

  /** Every row key is the key of a row at some position. */
  lemma {:induction false} RowKeyPosition(rs: seq<Record>, col: Key, x: int) returns (n: int)
    requires x in RowKeys(rs, col)
    ensures 0 <= n < |rs| && KeyOf(rs[n], col) == x
  {
    if KeyOf(rs[0], col) == x {
      n := 0;
    } else {
      n := RowKeyPosition(rs[1..], col, x);
      n := n + 1;
    }
  }

  /** The key of every bucket is one of the keys of the list. */
  lemma {:induction false} KeyIn(bs: seq<Bucket>, i: int)
    requires 0 <= i < |bs|
    ensures bs[i].key in Keys(bs)
  {
    if i > 0 {
      KeyIn(bs[1..], i - 1);
    }
  }

  /** Every row's key is the key of some bucket. */
  predicate Covers(bs: seq<Bucket>, rs: seq<Record>, col: Key) {
    forall n :: 0 <= n < |rs| ==> exists i :: 0 <= i < |bs| && bs[i].key == KeyOf(rs[n], col)
  }

  /** Exactly one bucket per distinct key: every row key has a bucket and no two buckets share one. */
  lemma {:induction false} GroupSumOnePerKey(rs: seq<Record>, col: Key)
    ensures Covers(GroupSum(rs, col), rs, col)
    ensures forall i, j :: 0 <= i < j < |GroupSum(rs, col)| ==> GroupSum(rs, col)[i].key != GroupSum(rs, col)[j].key
  {
    var bs := GroupSum(rs, col);
    GroupSumKeys(rs, col);
    forall n | 0 <= n < |rs|
      ensures exists i :: 0 <= i < |bs| && bs[i].key == KeyOf(rs[n], col)
    {
      RowKeyOf(rs, col, rs[n]);
      var i := KeyPosition(bs, KeyOf(rs[n], col));
    }
  }

  /** The last bucket carries the greatest key of all rows, the latest date
      or week, and that key is the key of some row. */
  lemma {:induction false} GroupSumLastIsLatest(rs: seq<Record>, col: Key)
    requires rs != []
    ensures |GroupSum(rs, col)| > 0
    ensures forall r :: r in rs ==> KeyOf(r, col) <= GroupSum(rs, col)[|GroupSum(rs, col)| - 1].key
    ensures exists n :: 0 <= n < |rs| && KeyOf(rs[n], col) == GroupSum(rs, col)[|GroupSum(rs, col)| - 1].key
  {
    var bs := GroupSum(rs, col);
    GroupSumKeys(rs, col);
    RowKeyOf(rs, col, rs[0]);
    assert bs != [];
    KeyIn(bs, |bs| - 1);
    var n := RowKeyPosition(rs, col, bs[|bs| - 1].key);
    forall r | r in rs
      ensures KeyOf(r, col) <= bs[|bs| - 1].key
    {
      RowKeyOf(rs, col, r);
      KeysAtMostLast(bs, KeyOf(r, col));
    }
  }
}

=== FILE: growth.dfy ===
/**
 Week-over-week growth per 100 000 inhabitants and its up/down card.
 The weekly sums of new cases are taken from the group-by on the
 epidemiological week; the last week is usually incomplete, so "current" is
 the second-to-last week and "previous" the third-to-last. A place uses the
 population of its first row; the nation uses a fixed population. Values
 are exact reals here; the float rounding and the text rendering of the
 card are not part of this model.
 */
module Growth {
  import opened Records
  import opened Grouping

  /** The population used for the nation-wide growth figure. */
  const PopBrazil: int := 210147125

  /** The current and the previous week's new cases per 100 000 inhabitants. */
  datatype Rates = Rates(current: real, previous: real)

  function Per100k(count: int, pop: int): real
    requires pop != 0
  {
    (count as real / pop as real) * 100000.0
  }

  /** Weekly new cases from the week sums of a group-by, as the positional
      lookups `iloc[-2]` and `iloc[-3]` take them. The lookups and the
      division happen in Python's order: `iloc[-2]` fails on fewer than two
      weeks, then the division by a zero population fails, then `iloc[-3]`
      fails on exactly two weeks. */
  function WeeklyGrowth(weekly: seq<Bucket>, pop: int): (r: Result<Rates>)
    ensures r.Ok? <==> |weekly| >= 3 && pop != 0
    ensures r.Err? && |weekly| >= 2 && pop == 0 ==> r.error == ZeroPopulation
    ensures r.Err? && (|weekly| < 2 || pop != 0) ==> r.error == NoSuchPosition
    ensures r.Ok? ==>
      && r.value.current == Per100k(weekly[|weekly| - 2].sums.newConfirmed, pop)
      && r.value.previous == Per100k(weekly[|weekly| - 3].sums.newConfirmed, pop)
  {
    if |weekly| < 2 then Err(NoSuchPosition)
    else if pop == 0 then Err(ZeroPopulation)
    else if |weekly| < 3 then Err(NoSuchPosition)
    else
      var n := |weekly|;
      Ok(Rates(Per100k(weekly[n - 2].sums.newConfirmed, pop), Per100k(weekly[n - 3].sums.newConfirmed, pop)))
  }

  /** The growth figure of a city or a state: weekly sums of its rows and
      the population of its first row. The only empty frame the dashboard
      builds is the one read from an empty list, which has no columns, so
      the group-by on the week column already fails with a missing column
      (the panels never reach this on an empty table). The current figure is the new cases over exactly the rows of the
      second-latest epidemiological week present, per 100 000 of the first
      row's population; the previous figure likewise for the third-latest
      week; the failures are those of `WeeklyGrowth`, in its order. */
  function GrowthData(rs: seq<Record>): (r: Result<Rates>)
    ensures rs == [] ==> r == Err(MissingColumn)
    ensures r.Ok? <==> rs != [] && rs[0].population != 0 && |GroupSum(rs, ByWeek)| >= 3
    ensures r.Err? && rs != [] && |GroupSum(rs, ByWeek)| >= 2 && rs[0].population == 0 ==> r.error == ZeroPopulation
    ensures r.Err? && rs != [] && (|GroupSum(rs, ByWeek)| < 2 || rs[0].population != 0) ==> r.error == NoSuchPosition
    ensures r.Ok? ==>
      var bs := GroupSum(rs, ByWeek);
      var n := |bs|;
      && bs[n - 3].key < bs[n - 2].key < bs[n - 1].key
      && r.value.current == Per100k(SumWhere(rs, ByWeek, bs[n - 2].key).newConfirmed, rs[0].population)
      && r.value.previous == Per100k(SumWhere(rs, ByWeek, bs[n - 3].key).newConfirmed, rs[0].population)
  {
    if rs == [] then Err(MissingColumn)
    else
      var weekly := GroupSum(rs, ByWeek);
      var n := |weekly|;
      if n >= 3 then
        GroupSumBucket(rs, ByWeek, n - 2);
        GroupSumBucket(rs, ByWeek, n - 3);
        WeeklyGrowth(weekly, rs[0].population)
      else
        WeeklyGrowth(weekly, rs[0].population)
  }

  /** The nation-wide growth figure: weekly sums of all state rows over the fixed population. */
  function NationGrowth(brRows: seq<Record>): (r: Result<Rates>)
    ensures r.Ok? <==> |GroupSum(brRows, ByWeek)| >= 3
    ensures r.Err? ==> r.error == NoSuchPosition
    ensures var bs := GroupSum(brRows, ByWeek);
            |bs| >= 3 ==>
              && r.Ok?
              && r.value.current == Per100k(bs[|bs| - 2].sums.newConfirmed, PopBrazil)
              && r.value.previous == Per100k(bs[|bs| - 3].sums.newConfirmed, PopBrazil)
  {
    WeeklyGrowth(GroupSum(brRows, ByWeek), PopBrazil)
  }

  /** With a positive population, a larger weekly count gives a larger rate. */
  lemma Per100kMonotone(a: int, b: int, pop: int)
    requires pop > 0
    ensures Per100k(a, pop) > Per100k(b, pop) <==> a > b
  {
    var p := pop as real;
    assert Per100k(a, pop) - Per100k(b, pop) == ((a - b) as real / p) * 100000.0;
    if a > b {
      assert (a - b) as real / p > 0.0;
    } else {
      assert (a - b) as real / p <= 0.0;
    }
  }

  /** Since both weeks use the same positive population, growth is up
      exactly when the second-to-last week had more new cases than the
      third-to-last. */
  lemma {:induction false} GrowthUpIffWeekGrew(weekly: seq<Bucket>, pop: int)
    requires pop > 0 && |weekly| >= 3
    ensures WeeklyGrowth(weekly, pop).Ok?
    ensures WeeklyGrowth(weekly, pop).value.current > WeeklyGrowth(weekly, pop).value.previous
            <==> weekly[|weekly| - 2].sums.newConfirmed > weekly[|weekly| - 3].sums.newConfirmed
  {
    Per100kMonotone(weekly[|weekly| - 2].sums.newConfirmed, weekly[|weekly| - 3].sums.newConfirmed, pop);
  }

  /** The direction shown on the growth card. */
  datatype Trend = Up | Down

  /** The growth card: the current figure, the arrow, and the size of the change. */
  datatype GrowthCard = GrowthCard(value: real, trend: Trend, change: real)

  /** `generate_growth_indicator`: "▲" with the difference when it is
      positive, otherwise "▼" with the difference's minus sign removed. */
  function GrowthIndicator(current: real, previous: real): (g: GrowthCard)
    ensures g.value == current
    ensures g.trend == Up <==> current - previous > 0.0
    ensures g.change >= 0.0
    ensures g.change == if current >= previous then current - previous else previous - current
  {
    var diff := current - previous;
    if diff > 0.0 then GrowthCard(current, Up, diff)
    else GrowthCard(current, Down, if diff < 0.0 then -diff else diff)
  }

  /** The card determines the previous week's figure: the arrow and the
      magnitude undo the subtraction. */
  lemma GrowthCardRecoversPrevious(current: real, previous: real)
    ensures var g := GrowthIndicator(current, previous);
            previous == if g.trend == Up then g.value - g.change else g.value + g.change
  {
  }
}

=== FILE: indicators.dfy ===
/**
 The headline indicators: totals, the latest day's new counts and its date.
 For a city or a state they come from the row flagged `is_last`, selected
 with `.item()`, which fails unless the selection holds exactly one row.
 For the nation they come from the last row of the per-date sums, that is
 the latest date.
 */
module Indicators {
  import opened Records
  import opened Grouping
  import opened Selection

  predicate IsLast(r: Record) {
    r.isLast
  }

  /** `df.loc[df['is_last'] == True, col].item()`: the one flagged row, or
      the error `.item()` raises on a selection of any other size. */
  function LastRecord(rs: seq<Record>): (r: Result<Record>)
    ensures r.Ok? <==> |Where(rs, IsLast)| == 1
    ensures r.Err? ==> r.error == NotUnique(|Where(rs, IsLast)|)
    ensures r.Ok? ==> r.value in rs && r.value.isLast
  {
    Item(rs, IsLast)
  }

  /** The headline lookup succeeds exactly when one row is flagged
      `is_last`, and then yields that row. */
  lemma {:induction false} LastRecordIsUniqueRow(rs: seq<Record>)
    ensures LastRecord(rs).Ok? <==> exists i :: UniqueAt(rs, IsLast, i)
    ensures forall i :: UniqueAt(rs, IsLast, i) ==> LastRecord(rs) == Ok(rs[i])
  {
    ItemIsUniqueRow(rs, IsLast);
  }

  /** The per-date bucket of the latest date (`iloc[-1]`), or the error of an empty frame. */
  function LatestBucket(byDate: seq<Bucket>): (r: Result<Bucket>)
    ensures r.Ok? <==> byDate != []
    ensures r.Err? ==> r.error == NoSuchPosition
    ensures r.Ok? ==> r.value == byDate[|byDate| - 1]
  {
    if byDate == [] then Err(NoSuchPosition) else Ok(byDate[|byDate| - 1])
  }

  /** The nation's headline bucket: present exactly when there are rows; its
      date is the latest date of any state row (a date some row has, and no
      row has a later one), and its counters are the sums over exactly the
      rows of that date. */
  lemma {:induction false} NationLatest(brRows: seq<Record>)
    ensures LatestBucket(GroupSum(brRows, ByDate)).Ok? <==> brRows != []
    ensures LatestBucket(GroupSum(brRows, ByDate)).Ok? ==>
      var b := LatestBucket(GroupSum(brRows, ByDate)).value;
      && (exists n :: 0 <= n < |brRows| && brRows[n].date == b.key)
      && (forall n :: 0 <= n < |brRows| ==> brRows[n].date <= b.key)
      && b.sums == SumWhere(brRows, ByDate, b.key)
  {
    var bs := GroupSum(brRows, ByDate);
    if brRows != [] {
      GroupSumLastIsLatest(brRows, ByDate);
      GroupSumBucket(brRows, ByDate, |bs| - 1);
      forall n | 0 <= n < |brRows|
        ensures brRows[n].date <= bs[|bs| - 1].key
      {
        assert brRows[n] in brRows;
      }
    } else {
      assert bs == [];
    }
  }
}

=== FILE: records.dfy ===
/**
 The typed rows the dashboard works on: one daily record per place and date,
 the four summed counters of a group, and the error kinds the dashboard's
 code can raise. Dates are day numbers (any integer that orders days chronologically);
 epidemiological weeks are the integer YYYYWW.
 */
module Records {

  /** One row of the case table for a city or a state. */
  datatype Record = Record(
    date: int,
    confirmed: int,     // last_available_confirmed (cumulative)
    deaths: int,        // last_available_deaths (cumulative)
    newConfirmed: int,  // new_confirmed
    newDeaths: int,     // new_deaths
    week: int,          // epidemiological_week, YYYYWW
    population: int,    // estimated_population_2019
    isLast: bool        // is_last
  )

  /** The four counters that a group-by sums and the charts read. */
  datatype Counts = Counts(confirmed: int, deaths: int, newConfirmed: int, newDeaths: int)

  /** Which counter a chart or an indicator shows. */
  datatype Field = Confirmed | Deaths | NewConfirmed | NewDeaths

  const Zero := Counts(0, 0, 0, 0)

  function Add(a: Counts, b: Counts): Counts {
    Counts(a.confirmed + b.confirmed, a.deaths + b.deaths,
           a.newConfirmed + b.newConfirmed, a.newDeaths + b.newDeaths)
  }

  function CountsOf(r: Record): Counts {
    Counts(r.confirmed, r.deaths, r.newConfirmed, r.newDeaths)
  }

  function Pick(c: Counts, f: Field): int {
    match f
    case Confirmed => c.confirmed
    case Deaths => c.deaths
    case NewConfirmed => c.newConfirmed
    case NewDeaths => c.newDeaths
  }

  /** The exceptions the Python code raises on malformed or short data. */
  datatype Error =
    | NoSuchPosition        // IndexError from a positional lookup (.iloc)
    | ZeroPopulation        // ZeroDivisionError when the population is 0
    | NotUnique(count: nat) // ValueError from .item() on a selection of `count` rows
    | NotAnInteger          // ValueError from int() on a non-numeric code
    | MissingColumn         // KeyError from a column lookup on a frame read from an empty list

  datatype Result<+T> = Ok(value: T) | Err(error: Error)

  datatype Option<+T> = None | Some(value: T)
}

=== FILE: reference.dfy ===
/**
 The static reference table of places (`cities_ibge_code.csv`): one row per
 state or city with its display name, its IBGE code, its type and the
 abbreviation of its state. The table feeds the two dropdowns and the
 label shown above the charts. Its code column is read as floats, so a
 code is rendered "<digits>.0" and the ".0" is stripped for the dropdown.
 */
module Reference {
  import opened Records
  import opened Decimal
  import opened Selection

  datatype PlaceType = City | State

  /** One row of the reference table: label, value (the IBGE code), type, state. */
  datatype Place = Place(name: string, code: nat, kind: PlaceType, state: string)

  /** A dropdown entry: what is shown and the code string the dropdown returns. */
  datatype DropdownOption = DropdownOption(name: string, value: string)

  /** The entry of one row, its code rendered as a float and stripped of ".0". */
  function OptionOf(p: Place): (o: DropdownOption)
    ensures o.name == p.name
    ensures o.value == Digits(p.code) && ParseCode(o.value) == Some(p.code)
  {
    CodeRoundTrip(p.code);
    DropdownOption(p.name, StripPointZero(RenderFloat(p.code)))
  }

  function Options(ps: seq<Place>): (os: seq<DropdownOption>)
    ensures |os| == |ps|
    ensures forall i :: 0 <= i < |ps| ==> os[i] == OptionOf(ps[i])
  {
    if ps == [] then [] else [OptionOf(ps[0])] + Options(ps[1..])
  }

  predicate IsState(p: Place) {
    p.kind == State
  }

  /** `get_dropdown_states`: one entry per state row, in table order. */
  function StateOptions(table: seq<Place>): (os: seq<DropdownOption>)
    ensures |os| == |Positions(table, IsState)|
    ensures forall k :: 0 <= k < |os| ==> os[k] == OptionOf(table[Positions(table, IsState)[k]])
  {
    OptionsInOrder(table, IsState);
    Options(Where(table, IsState))
  }

  /** The mask `(type == 'city') & (state == abbr)`. */
  function IsCityOf(abbr: string): Place -> bool {
    (p: Place) => p.kind == City && p.state == abbr
  }

  /** The rows of the cities of the state abbreviated `abbr`. */
  function CitiesOf(table: seq<Place>, abbr: string): seq<Place> {
    Where(table, IsCityOf(abbr))
  }

  /** `IBGE.loc[IBGE['value'] == code]` followed by `.item()`: the one row
      with this code, or the error for none or several. */
  function PlaceWithCode(table: seq<Place>, code: nat): (r: Result<Place>)
    ensures r.Ok? ==> r.value in table && r.value.code == code
    ensures r.Err? ==> r.error.NotUnique?
  {
    Item(table, (p: Place) => p.code == code)
  }

  /** `get_dropdown_cities(state)`: `int()` of the selected state code, the
      abbreviation of the one row with that code, then one entry per city
      row of that abbreviation, in table order. The list exists exactly when
      the state value reads as an integer that one row of the table
      carries, and it then lists the cities of that row's state. A value
      that does not read fails as `int()` does; a code not carried by
      exactly one row fails as `.item()` does. */
  function CityOptions(table: seq<Place>, state: string): (r: Result<seq<DropdownOption>>)
    ensures r.Ok? <==> ParseCode(state).Some? && exists i :: OnlyRowWithCode(table, ParseCode(state).value, i)
    ensures ParseCode(state).None? ==> r == Err(NotAnInteger)
    ensures ParseCode(state).Some? && r.Err? ==> r.error.NotUnique?
    ensures forall i :: ParseCode(state).Some? && OnlyRowWithCode(table, ParseCode(state).value, i) ==>
              r == Ok(Options(CitiesOf(table, table[i].state)))
  {
    match ParseCode(state)
    case None => Err(NotAnInteger)
    case Some(code) =>
      PlaceWithCodeUnique(table, code);
      match PlaceWithCode(table, code)
      case Err(e) => Err(e)
      case Ok(row) => Ok(Options(CitiesOf(table, row.state)))
  }

  /** `get_ibge_label(code, type)`: for a city "<name> (<state>)", otherwise
      the name. A label is found exactly when the code reads as an integer
      that one row of the table carries; a city label is that row's name
      followed by its state abbreviation in parentheses, a state label is
      the name alone. */
  function IbgeLabel(table: seq<Place>, code: string, isCity: bool): (r: Result<string>)
    ensures r.Ok? <==> ParseCode(code).Some? && exists i :: OnlyRowWithCode(table, ParseCode(code).value, i)
    ensures ParseCode(code).None? ==> r == Err(NotAnInteger)
    ensures forall i :: ParseCode(code).Some? && OnlyRowWithCode(table, ParseCode(code).value, i) ==>
              r == Ok(if isCity then table[i].name + " (" + table[i].state + ")" else table[i].name)
  {
    match ParseCode(code)
    case None => Err(NotAnInteger)
    case Some(n) =>
      PlaceWithCodeUnique(table, n);
      match PlaceWithCode(table, n)
      case Err(e) => Err(e)
      case Ok(row) => Ok(if isCity then row.name + " (" + row.state + ")" else row.name)
  }

  /** Position `i` holds the only row of the table with code `n`. */
  predicate OnlyRowWithCode(table: seq<Place>, n: nat, i: int) {
    0 <= i < |table| && table[i].code == n && forall j :: 0 <= j < |table| && j != i ==> table[j].code != n
  }

  /** The code lookup succeeds exactly when one row has the code, and then yields that row. */
  lemma {:induction false} PlaceWithCodeUnique(table: seq<Place>, n: nat)
    ensures PlaceWithCode(table, n).Ok? <==> exists i :: OnlyRowWithCode(table, n, i)
    ensures forall i :: OnlyRowWithCode(table, n, i) ==> PlaceWithCode(table, n) == Ok(table[i])
  {
    var p := (q: Place) => q.code == n;
    ItemIsUniqueRow(table, p);
    forall i
      ensures OnlyRowWithCode(table, n, i) <==> UniqueAt(table, p, i)
    {
    }
  }

  /** The entries of a selection are exactly the entries of the rows it keeps. */
  lemma {:induction false} OptionsOfWhere(table: seq<Place>, f: Place -> bool, o: DropdownOption)
    ensures o in Options(Where(table, f)) <==> exists p :: p in table && f(p) && o == OptionOf(p)
  {
    var ps := Where(table, f);
    var os := Options(ps);
    if o in os {
      var i :| 0 <= i < |ps| && os[i] == o;
      assert ps[i] in table && f(ps[i]) by {
        WhereMembers(table, f, ps[i]);
      }
    }
    if exists p :: p in table && f(p) && o == OptionOf(p) {
      var p :| p in table && f(p) && o == OptionOf(p);
      assert p in ps by {
        WhereMembers(table, f, p);
      }
      var i :| 0 <= i < |ps| && ps[i] == p;
      assert os[i] == o;
    }
  }

  /** The entries of a selection are the entries of the rows it keeps, one per row, in table order. */
  lemma {:induction false} OptionsInOrder(table: seq<Place>, f: Place -> bool)
    ensures var ps := Positions(table, f);
            |Options(Where(table, f))| == |ps|
            && forall k :: 0 <= k < |ps| ==> Options(Where(table, f))[k] == OptionOf(table[ps[k]])
  {
    WhereAtPositions(table, f);
  }

  /** The state entries are exactly the state rows, each with its code as plain digits. */
  lemma {:induction false} StateOptionsExact(table: seq<Place>)
    ensures forall o :: o in StateOptions(table) <==>
              exists p :: p in table && p.kind == State && o == OptionOf(p)
  {
    forall o
      ensures o in StateOptions(table) <==> exists p :: p in table && p.kind == State && o == OptionOf(p)
    {
      OptionsOfWhere(table, IsState, o);
    }
  }

  /** The city entries for a state are exactly the city rows whose state
      abbreviation is that of the one row carrying the selected code, the
      k-th entry being that of the k-th such row of the table. */
  lemma {:induction false} CityOptionsExact(table: seq<Place>, state: string)
    requires CityOptions(table, state).Ok?
    ensures ParseCode(state).Some? && PlaceWithCode(table, ParseCode(state).value).Ok?
    ensures var abbr := PlaceWithCode(table, ParseCode(state).value).value.state;
            forall o :: o in CityOptions(table, state).value <==>
              exists p :: p in table && p.kind == City && p.state == abbr && o == OptionOf(p)
    ensures var ps := Positions(table, IsCityOf(PlaceWithCode(table, ParseCode(state).value).value.state));
            |CityOptions(table, state).value| == |ps|
            && forall k :: 0 <= k < |ps| ==> CityOptions(table, state).value[k] == OptionOf(table[ps[k]])
  {
    var abbr := PlaceWithCode(table, ParseCode(state).value).value.state;
    var f := IsCityOf(abbr);
    assert CityOptions(table, state).value == Options(Where(table, f));
    forall o
      ensures o in Options(Where(table, f)) <==> exists p :: p in table && p.kind == City && p.state == abbr && o == OptionOf(p)
    {
      OptionsOfWhere(table, f, o);
    }
    OptionsInOrder(table, f);
  }
}

=== FILE: selection.dfy ===
/**
 Row selection as the dashboard does it with pandas: a boolean mask keeps
 the rows that satisfy a condition, in table order, and `.item()` turns a
 selection into its single value, failing unless exactly one row was kept.
 */
module Selection {
  import opened Records

  /** The rows that satisfy `p`, in table order: `df.loc[mask]`. */
  function Where<T(==)>(xs: seq<T>, p: T -> bool): (ys: seq<T>)
    ensures |ys| <= |xs|
    ensures forall y :: y in ys ==> y in xs && p(y)
  {
    if xs == [] then [] else (if p(xs[0]) then [xs[0]] else []) + Where(xs[1..], p)
  }

  /** The selection keeps exactly the rows that satisfy the condition. */
  lemma {:induction false} WhereMembers<T>(xs: seq<T>, p: T -> bool, x: T)
    ensures x in Where(xs, p) <==> x in xs && p(x)
  {
    if xs != [] {
      WhereMembers(xs[1..], p, x);
      assert xs == [xs[0]] + xs[1..];
    }
  }

  /** Position `j` holds a row that satisfies `p`. */
  predicate Satisfies<T>(xs: seq<T>, p: T -> bool, j: int) {
    0 <= j < |xs| && p(xs[j])
  }

  /** The positions from `start` on whose rows satisfy `p`, in increasing order. */
  function PositionsFrom<T>(xs: seq<T>, p: T -> bool, start: nat): (ps: seq<nat>)
    requires start <= |xs|
    ensures forall k :: 0 <= k < |ps| ==> start <= ps[k] < |xs|
    decreases |xs| - start
  {
    if start == |xs| then []
    else (if p(xs[start]) then [start] else []) + PositionsFrom(xs, p, start + 1)
  }

  /** The positions listed from `start` on hold rows that satisfy `p`. */
  lemma {:induction false} PositionsFromSatisfy<T>(xs: seq<T>, p: T -> bool, start: nat)
    requires start <= |xs|
    ensures forall k :: 0 <= k < |PositionsFrom(xs, p, start)| ==> p(xs[PositionsFrom(xs, p, start)[k]])
    decreases |xs| - start
  {
    if start < |xs| {
      PositionsFromSatisfy(xs, p, start + 1);
    }
  }

  /** The positions listed from `start` on are strictly increasing. */
  lemma {:induction false} PositionsFromOrdered<T>(xs: seq<T>, p: T -> bool, start: nat)
    requires start <= |xs|
    ensures forall k, l :: 0 <= k < l < |PositionsFrom(xs, p, start)| ==>
              PositionsFrom(xs, p, start)[k] < PositionsFrom(xs, p, start)[l]
    decreases |xs| - start
  {
    if start < |xs| {
      PositionsFromOrdered(xs, p, start + 1);
    }
  }

  /** Every position from `start` on whose row satisfies `p` is listed. */
  lemma {:induction false} PositionsFromCover<T>(xs: seq<T>, p: T -> bool, start: nat)
    requires start <= |xs|
    ensures forall j :: start <= j && Satisfies(xs, p, j) ==> j in PositionsFrom(xs, p, start)
    decreases |xs| - start
  {
    if start < |xs| {
      var ps, rest := PositionsFrom(xs, p, start), PositionsFrom(xs, p, start + 1);
      PositionsFromCover(xs, p, start + 1);
      if p(xs[start]) {
        assert ps == [start] + rest;
        forall j | start < j && Satisfies(xs, p, j)
          ensures j in ps
        {
          var i :| 0 <= i < |rest| && rest[i] == j;
          assert ps[i + 1] == j;
        }
      } else {
        assert ps == rest;
      }
    }
  }

  /** The positions of the rows that satisfy `p`, in table order. */
  function Positions<T>(xs: seq<T>, p: T -> bool): (ps: seq<nat>)
    ensures forall k :: 0 <= k < |ps| ==> ps[k] < |xs| && p(xs[ps[k]])
    ensures forall k, l :: 0 <= k < l < |ps| ==> ps[k] < ps[l]
    ensures forall j :: Satisfies(xs, p, j) ==> j in ps
  {
    PositionsFromSatisfy(xs, p, 0);
    PositionsFromOrdered(xs, p, 0);
    PositionsFromCover(xs, p, 0);
    PositionsFrom(xs, p, 0)
  }

  lemma {:induction false} WhereFrom<T>(xs: seq<T>, p: T -> bool, start: nat)
    requires start <= |xs|
    ensures |Where(xs[start..], p)| == |PositionsFrom(xs, p, start)|
    ensures forall k :: 0 <= k < |PositionsFrom(xs, p, start)| ==>
              Where(xs[start..], p)[k] == xs[PositionsFrom(xs, p, start)[k]]
    decreases |xs| - start
  {
    if start < |xs| {
      var rest, restPs := Where(xs[start + 1..], p), PositionsFrom(xs, p, start + 1);
      WhereFrom(xs, p, start + 1);
      assert xs[start..][1..] == xs[start + 1..];
      if p(xs[start]) {
        assert Where(xs[start..], p) == [xs[start]] + rest;
        assert PositionsFrom(xs, p, start) == [start] + restPs;
        forall k | 1 <= k < |restPs| + 1
          ensures ([xs[start]] + rest)[k] == xs[([start] + restPs)[k]]
        {
          assert ([xs[start]] + rest)[k] == rest[k - 1];
          assert ([start] + restPs)[k] == restPs[k - 1];
        }
      } else {
        assert Where(xs[start..], p) == rest;
        assert PositionsFrom(xs, p, start) == restPs;
      }
    }
  }

  /** The selection is the order-keeping filter: its k-th row is the row at
      the k-th position that satisfies `p`, so every such row appears once
      and in table order. */
  lemma {:induction false} WhereAtPositions<T>(xs: seq<T>, p: T -> bool)
    ensures |Where(xs, p)| == |Positions(xs, p)|
    ensures forall k :: 0 <= k < |Positions(xs, p)| ==> Where(xs, p)[k] == xs[Positions(xs, p)[k]]
  {
    WhereFrom(xs, p, 0);
    assert xs[0..] == xs;
  }

  /** `.item()` on the selection: its one row, or the error raised for any other size. */
  function Item<T(==)>(xs: seq<T>, p: T -> bool): (r: Result<T>)
    ensures r.Ok? <==> |Where(xs, p)| == 1
    ensures r.Err? ==> r.error == NotUnique(|Where(xs, p)|)
    ensures r.Ok? ==> r.value in xs && p(r.value)
  {
    var ys := Where(xs, p);
    if |ys| == 1 then Ok(ys[0]) else Err(NotUnique(|ys|))
  }

  /** Position `i` holds the only row that satisfies `p`. */
  predicate UniqueAt<T>(xs: seq<T>, p: T -> bool, i: int) {
    0 <= i < |xs| && p(xs[i]) && forall j :: 0 <= j < |xs| && j != i ==> !p(xs[j])
  }

  /** The selection is empty exactly when no row satisfies the condition. */
  lemma {:induction false} WhereEmpty<T>(xs: seq<T>, p: T -> bool)
    ensures Where(xs, p) == [] <==> forall j :: 0 <= j < |xs| ==> !p(xs[j])
  {
    if xs != [] {
      WhereEmpty(xs[1..], p);
      if Where(xs, p) == [] {
        forall j | 0 < j < |xs|
          ensures !p(xs[j])
        {
          assert xs[j] == xs[1..][j - 1];
        }
      }
      if forall j :: 0 <= j < |xs| ==> !p(xs[j]) {
        forall j | 0 <= j < |xs[1..]|
          ensures !p(xs[1..][j])
        {
          assert xs[1..][j] == xs[j + 1];
        }
      }
    }
  }

  /** `.item()` succeeds exactly when one row satisfies the condition, and
      then it yields that row. */
  lemma {:induction false} ItemIsUniqueRow<T>(xs: seq<T>, p: T -> bool)
    ensures Item(xs, p).Ok? <==> exists i :: UniqueAt(xs, p, i)
    ensures forall i :: UniqueAt(xs, p, i) ==> Item(xs, p) == Ok(xs[i])
  {
    if xs == [] {
      return;
    }
    var tail := xs[1..];
    ItemIsUniqueRow(tail, p);
    WhereEmpty(tail, p);
    forall i | 0 < i < |xs|
      ensures UniqueAt(xs, p, i) <==> !p(xs[0]) && UniqueAt(tail, p, i - 1)
    {
      if UniqueAt(xs, p, i) {
        forall j | 0 <= j < |tail| && j != i - 1
          ensures !p(tail[j])
        {
          assert tail[j] == xs[j + 1];
        }
      }
      if !p(xs[0]) && UniqueAt(tail, p, i - 1) {
        forall j | 0 <= j < |xs| && j != i
          ensures !p(xs[j])
        {
          if j > 0 {
            assert xs[j] == tail[j - 1];
          }
        }
      }
    }
    if p(xs[0]) {
      assert UniqueAt(xs, p, 0) <==> forall j :: 0 <= j < |tail| ==> !p(tail[j]) by {
        if UniqueAt(xs, p, 0) {
          forall j | 0 <= j < |tail|
            ensures !p(tail[j])
          {
            assert tail[j] == xs[j + 1];
          }
        }
        if forall j :: 0 <= j < |tail| ==> !p(tail[j]) {
          forall j | 0 < j < |xs|
            ensures !p(xs[j])
          {
            assert xs[j] == tail[j - 1];
          }
        }
      }
      if Item(xs, p).Ok? {
        assert UniqueAt(xs, p, 0);
      }
      if exists i :: UniqueAt(xs, p, i) {
        assert UniqueAt(xs, p, 0);
      }
    } else {
      assert !UniqueAt(xs, p, 0);
      if Item(xs, p).Ok? {
        var i :| UniqueAt(tail, p, i);
        assert UniqueAt(xs, p, i + 1);
      }
      if exists i :: UniqueAt(xs, p, i) {
        var i :| UniqueAt(xs, p, i);
        assert UniqueAt(tail, p, i - 1);
      }
    }
  }
}
